=== FILE: README.md ===
# ocean-sense-ai page logic, modelled in Dafny

The ocean-sense-ai front end is a mock dashboard: every page renders from
in-memory sample data, and its "asynchronous" behaviour is timers that make
up output. Under the markup sit four small pieces of sequential logic. This
project models them as pure functions over immutable datatypes and proves
what they promise.

- **Upload queue** (`data_processing.dfy`, module `DataProcessing`). A path is
  checked for blankness, and its last `/` segment becomes the job's file name.
  The job is put at the head of the list as `pending`. A start timer moves it
  to `processing`, and a repeating tick adds a random step to an accumulator.
  Each tick stores `min(acc, 100)` as the progress and `acc * 15000 / 100` as
  the record count. Once the accumulator reaches 100, the job becomes
  `completed` with progress 100 and 15000 records. Every update is a
  map-by-id over the job list. The start timer and each tick are explicit
  events that carry the clock reading, and each tick carries its step. A tick
  is the composition of the progress update and the completion update that
  the same callback applies.
- **Chat** (`chat.dfy`, module `Chat`). The page moves from idle to in-flight
  and back over an append-only message log. A send is refused for a blank
  input and while a reply is pending. An accepted send appends the user's
  message, clears the input and schedules the reply. The reply appends one
  assistant message that quotes the question and cites three fixed sources.
  Enter without Shift sends, and the Send button is enabled exactly when the
  guard accepts. `Run` folds a whole session of events.
- **Query history** (`query_history.dfy`, module `QueryHistory`). The search
  filter keeps an entry when its query or response contains the term,
  ignoring case, and its category is the selected one (or `all` is selected).
  The module also covers the star toggle by id, the starred count, and the
  relative timestamp ("Less than 1 hour ago", "h hour(s) ago", "d day(s) ago").
- **System status** (`system_status.dfy`, module `SystemStatus`). It covers
  the load colour thresholds, the status icons and badges, the per-status
  counts, the warning banner and its plural, and which metric bars a
  component shows.

`text.dfy` (module `Text`) holds the JavaScript string behaviour the pages rely
on. That is `trim` with JavaScript's exact whitespace set, ASCII case mapping,
`includes`, decimal rendering of counts and the plural `s`. `wrappers.dfy`
holds `Option`, which stands for the source's optional fields.

Each tick adds `Math.random() * 15`, and that step can be 0. So a job's
completion is proved only for runs whose ticks each add at least 1
(`DataProcessing.CompletesWithinBound`); no completion is promised for
arbitrary steps.

## Model

| member | source | states |
|---|---|---|
| `Text.TrimStart` | src/pages/Chat.tsx:53 | the first half of `trim()` as `Text.Trim` composes it: the result is a suffix of the input, everything dropped from the front is whitespace, and the result does not start with whitespace |
| `Text.TrimEnd` | src/pages/DataProcessing.tsx:71 | the second half of `trim()` as `Text.Trim` composes it: the result is a prefix of its input, everything dropped from the back is whitespace, and the result does not end with whitespace |
| `Text.Trim` | src/pages/Chat.tsx:53 | `trim()` never lengthens the string and leaves no whitespace at either end; it is `trimEnd` applied after `trimStart`, whose contracts fix what is dropped on each side |
| `Text.TrimEmptyIffBlank` | src/pages/Chat.tsx:53 | `!s.trim()` holds exactly when every character of `s` is JavaScript whitespace, which is how `Blank` reads the guard |
| `Text.Lower` | src/pages/QueryHistory.tsx:98-99 | lower-casing keeps the length and maps each character through the ASCII lower-case mapping |
| `Text.LowerOfUpper` | src/pages/QueryHistory.tsx:98-99 | lower-casing an upper-cased string gives the same result as lower-casing the original |
| `Text.Contains` | src/pages/QueryHistory.tsx:98-99 | `includes` fails whenever the needle is longer than the haystack and succeeds whenever the haystack ends with the needle |
| `Text.ContainsIffOccurs` | src/pages/QueryHistory.tsx:98-99 | the `includes` scan succeeds exactly when the needle occurs at some index of the haystack |
| `Text.NatToString` | src/pages/QueryHistory.tsx:126 | a rendered count is a non-empty run of decimal digits, one digit exactly for counts below 10, and it starts with `0` only for the count 0 (no leading zeros) |
| `Text.ParseNatToString` | src/pages/QueryHistory.tsx:126 | reading a rendered count back gives the count |
| `Text.DigitRunOfConcat` | src/pages/QueryHistory.tsx:129 | for digits followed by a non-digit, the leading digit run ends exactly at the boundary |
| `Text.CountThenRest` | src/pages/SystemStatus.tsx:187 | a rendered count followed by text that starts with a space reads back as that count, the text follows the digits, and the whole ends as the text does |
| `Text.QuoteShapeIffQuote` | src/pages/Chat.tsx:71 | for any fixed prefix and suffix, a text has the shape prefix, quote, question, quote, suffix exactly when it is the template filled with that question, so the question can be read back by position |
| `Text.Plural` | src/pages/QueryHistory.tsx:126 | the suffix is `s` exactly when the count exceeds one, and empty otherwise |
| `DataProcessing.Split` | src/pages/DataProcessing.tsx:85 | `split('/')` gives at least one piece, and no piece contains `/` |
| `DataProcessing.JoinSplit` | src/pages/DataProcessing.tsx:85 | joining the pieces with `/` gives the path back |
| `DataProcessing.LastPieceIsTail` | src/pages/DataProcessing.tsx:85 | the last piece is a suffix of the path, preceded by `/` or equal to the whole path, and it is the whole path only when there is a single piece |
| `DataProcessing.FileName` | src/pages/DataProcessing.tsx:85 | the file name is a suffix of the path; it is either the whole path or a `/`-free text right after a `/`; it is never empty for a non-empty path |
| `DataProcessing.FileNameIsBaseName` | src/pages/DataProcessing.tsx:85 | for a directory part, a `/`, and a non-empty base name without `/`, the file name is exactly the base name, whatever the directory part holds |
| `DataProcessing.SplitAround` | src/pages/DataProcessing.tsx:85 | `split('/')` of `a + "/" + b` is the pieces of `a` followed by the pieces of `b` |
| `DataProcessing.Apply` | src/pages/DataProcessing.tsx:96-129 | the timer updates never change a job's id, file name, size or error text; only the start update sets the start time and only the completion update sets the end time, as the `...job` spreads keep every field they do not name |
| `DataProcessing.MapById` | src/pages/DataProcessing.tsx:107-115 | a map-by-id update keeps the list length, patches every job with the id and leaves every other job as it was |
| `DataProcessing.FindMapById` | src/pages/DataProcessing.tsx:119-129 | after a map-by-id update, the job found under the updated id is the patched job, and the job found under any other id is unchanged |
| `DataProcessing.MapByIdFreshHead` | src/pages/DataProcessing.tsx:91-100 | when the id at the head is fresh, a map-by-id update touches the head only and keeps the older jobs in order |
| `DataProcessing.Submit` | src/pages/DataProcessing.tsx:70-92 | a blank path leaves the page unchanged and raises the error notice; otherwise it puts exactly one new `pending` job with progress 0 at index 0, keeps the old jobs after it in order, clears the path box; the new job's file name is `FileName` of the path, its size is the fixed 156.3 MB, and it has no times, records or error |
| `DataProcessing.Start` | src/pages/DataProcessing.tsx:95-100 | the start timer turns the job with the upload's id into that same job with status `processing` and the start time, every other field kept, and leaves every other job in the list as it was |
| `DataProcessing.Tick` | src/pages/DataProcessing.tsx:103-136 | a tick adds its step to the accumulator; the upload becomes done and raises the completion toast exactly when the accumulator reaches 100; only the upload's job changes; a tick after completion does nothing |
| `DataProcessing.RunTicks` | src/pages/DataProcessing.tsx:104-136 | a series of ticks keeps the upload's id and file name and the length of the job list |
| `DataProcessing.FindNone` | src/pages/DataProcessing.tsx:96-97 | a lookup by id finds nothing exactly when no job carries that id |
| `DataProcessing.SubmitEstablishes` | src/pages/DataProcessing.tsx:83-92 | an accepted submission with a fresh id starts an upload whose job is `pending` with progress 0 and no times, and every other upload's job is unaffected |
| `DataProcessing.SubmitOnSampleJobs` | src/pages/DataProcessing.tsx:36-66 | the initial jobs carry the ids 1, 2 and 3, so a submission at any other time on the page as it first loads starts a consistent upload |
| `DataProcessing.StartPreserves` | src/pages/DataProcessing.tsx:95-100 | the start timer moves the upload's job from `pending` to `processing` and records the start time |
| `DataProcessing.TickPreserves` | src/pages/DataProcessing.tsx:103-129 | after a tick the stored progress is `min(acc, 100)`, never decreases and never exceeds 100, the start time set by the start timer is kept, and the status never moves backwards; once the accumulator reaches 100 the job is `completed` with progress 100, 15000 records and the end time |
| `DataProcessing.ConsistentNeverError` | src/pages/DataProcessing.tsx:83-129 | the upload flow never puts its job in the `error` state, and the job's progress stays at most 100 |
| `DataProcessing.TracksLater` | src/pages/DataProcessing.tsx:98-125 | the recorded start and end times stay valid as the clock advances |
| `DataProcessing.DoneIsFinal` | src/pages/DataProcessing.tsx:117-118 | once the interval is cleared, later ticks leave the job list and the upload unchanged |
| `DataProcessing.CompletesWithinBound` | src/pages/DataProcessing.tsx:103-129 | a running job whose ticks each make progress completes within 100 ticks, ending as `completed` with progress 100, 15000 records and the end time no earlier than the start time |
| `DataProcessing.StepsOfOthersPreserve` | src/pages/DataProcessing.tsx:95-129 | the start and tick updates of one upload leave the job of every upload with a different id exactly as it was, and that upload's invariant keeps holding, so concurrent uploads proceed independently |
| `DataProcessing.OvershootIsOverwritten` | src/pages/DataProcessing.tsx:107-129 | the progress update alone can report more than 15000 records (16500 at accumulator 110); the completion update in the same callback sets the count back to 15000 |
| `DataProcessing.StatusBadge` | src/pages/DataProcessing.tsx:155-163 | the badge is destructive exactly for `error` |
| `DataProcessing.StatusLabelsDistinct` | src/pages/DataProcessing.tsx:155-163 | each of the four statuses has its own badge caption |
| `Chat.ReplyText` | src/pages/Chat.tsx:71 | the reply is the fixed prose with the submitted text between double quotes |
| `Chat.ReplyShapeIsReplyText` | src/pages/Chat.tsx:71 | a text has the reply shape for a question exactly when it is that question's reply, so the quoted question can be read back and different questions get different replies |
| `Chat.Send` | src/pages/Chat.tsx:52-64 | a blank input or a pending reply leaves the page unchanged; otherwise it appends one user message holding the raw input, keeps the earlier messages, clears the input, and marks the reply as pending |
| `Chat.Reply` | src/pages/Chat.tsx:67-77 | the reply appends one assistant message that quotes the captured question and cites the three fixed sources, keeps the earlier messages, and clears the pending state |
| `Chat.Edit` | src/pages/Chat.tsx:182-188 | typing changes only the input, and only when no reply is pending |
| `Chat.QuickQuery` | src/pages/Chat.tsx:85-87 | a quick-query button puts its question in the input and changes nothing else |
| `Chat.SendButtonMatchesGuard` | src/pages/Chat.tsx:190-192 | the Send button is enabled exactly when a click would append a message |
| `Chat.CanSend` | src/pages/Chat.tsx:53 | the guard accepts exactly when the trimmed input is non-empty and no reply is pending; the Send button's `disabled` expression at line 192 is its negation |
| `Chat.KeyPress` | src/pages/Chat.tsx:89-94 | a key press never removes or rewrites earlier messages, and when it changes anything it has sent the input: the box is cleared and the reply to that input is pending |
| `Chat.KeyPressSendsOnlyOnEnter` | src/pages/Chat.tsx:89-94 | a key press sends exactly when the key is Enter without Shift and the guard accepts; any other key, and Shift+Enter, leave the page as it was |
| `Chat.QuickQueryIsSendable` | src/pages/Chat.tsx:28-34 | every quick query is non-blank, so it can be sent at once when no reply is pending |
| `Chat.ExchangeAppendsTwo` | src/pages/Chat.tsx:52-77 | one exchange from an idle page grows the log by two: the user's raw input at length-2 and the assistant's quoting reply at length-1; the page is idle again |
| `Chat.ExchangesAfterSend` | src/pages/Chat.tsx:55-64 | a non-blank question sent after complete exchanges opens a new exchange, with the reply pending for its text |
| `Chat.ExchangesAfterReply` | src/pages/Chat.tsx:67-77 | the reply closes the open exchange by quoting its question |
| `Chat.ExchangesAlternate` | src/pages/Chat.tsx:52-77 | in the messages a session adds, user and assistant alternate starting with the user, and a reply is pending exactly when their count is odd |
| `Chat.ExchangesQuote` | src/pages/Chat.tsx:52-77 | in the messages a session adds, every user message is non-blank and every assistant message quotes the message before it |
| `Chat.StepCases` | src/pages/Chat.tsx:52-94 | an event either leaves the log and the pending state alone, or is an accepted send, or is the arrival of the pending reply |
| `Chat.SessionAppendsExchanges` | src/pages/Chat.tsx:52-94 | over any session from an idle page the log only grows, and what it adds is question-and-reply pairs, possibly followed by the one question whose reply is pending; each question is non-blank and each reply is the reply to the question before it |
| `QueryHistory.Filter` | src/pages/QueryHistory.tsx:97-102 | the filtered list is an order-preserving subsequence of the history; it holds every matching entry as often as the history does and no other entry |
| `Chat.SessionFromGreeting` | src/pages/Chat.tsx:19-94 | from the page as it first renders, the log is always the greeting followed by alternating questions and replies, starting with a question; every question is non-blank, every reply quotes the question before it, and a reply is pending exactly when an odd number of messages follows the greeting |
| `QueryHistory.FilterNothing` | src/pages/QueryHistory.tsx:97-102 | an empty search with `all` selected returns the whole history |
| `QueryHistory.FilterIgnoresCase` | src/pages/QueryHistory.tsx:98-99 | an upper-cased search term selects the same entries as the term itself |
| `QueryHistory.ToggleStar` | src/pages/QueryHistory.tsx:104-108 | the star flips on exactly the entries with the id, and the length and every other field stay the same |
| `QueryHistory.ToggleStarTwice` | src/pages/QueryHistory.tsx:104-108 | toggling twice restores the history |
| `QueryHistory.ToggleAbsent` | src/pages/QueryHistory.tsx:104-108 | toggling an id that no entry carries changes nothing |
| `QueryHistory.ToggleStarCount` | src/pages/QueryHistory.tsx:104-108 | toggling the one entry with an id moves the starred count down by one if it was starred, up by one otherwise |
| `QueryHistory.StarredAtMostTotal` | src/pages/QueryHistory.tsx:199-205 | the starred count never exceeds the total count |
| `QueryHistory.StarredCount` | src/pages/QueryHistory.tsx:205 | the "Starred Results" figure is zero exactly when no entry is starred |
| `QueryHistory.AgeOf` | src/pages/QueryHistory.tsx:121-128 | under an hour exactly when less than an hour has elapsed (or the time is in the future); whole hours from one hour below a day; whole days, at least one, from a day on |
| `QueryHistory.ParseRender` | src/pages/QueryHistory.tsx:125-129 | every timestamp label reads back as the bucket it came from, so distinct buckets have distinct labels |
| `QueryHistory.ParseCount` | src/pages/QueryHistory.tsx:126-129 | a label made of a count and its unit splits back into exactly that count and unit, and never equals "Less than 1 hour ago" |
| `QueryHistory.ParseCountLabel` | src/pages/QueryHistory.tsx:126-129 | a count label reads back as its count followed by the singular unit, or the plural unit exactly when the count exceeds one |
| `QueryHistory.FormatTimestampBuckets` | src/pages/QueryHistory.tsx:121-130 | the formatted timestamp names the bucket of the elapsed time |
| `QueryHistory.FormatTimestamp` | src/pages/QueryHistory.tsx:121-130 | the label is "Less than 1 hour ago" exactly when less than an hour has elapsed (a future timestamp included); otherwise it starts with a digit and ends in " ago" |
| `QueryHistory.PluralOnlyAboveOne` | src/pages/QueryHistory.tsx:126-129 | a timestamp label ends in "s ago" exactly when its hour or day count exceeds one |
| `QueryHistory.CountLabelPlural` | src/pages/QueryHistory.tsx:126-129 | a count label ends in "s ago" exactly when its count exceeds one |
| `SystemStatus.LoadColor` | src/pages/SystemStatus.tsx:102-106 | for any real load, success exactly below 50, warning exactly from 50 below 80, destructive exactly from 80 |
| `SystemStatus.LoadColorMonotone` | src/pages/SystemStatus.tsx:102-106 | a higher load never gets a less severe colour |
| `SystemStatus.IconFor` | src/pages/SystemStatus.tsx:80-89 | the check icon appears exactly for online; the colour is success exactly for online and destructive exactly for offline |
| `SystemStatus.BadgeFor` | src/pages/SystemStatus.tsx:91-100 | the badge is destructive exactly for offline |
| `SystemStatus.StatusPresentationDistinct` | src/pages/SystemStatus.tsx:80-100 | the three statuses get three different icon-and-colour pairs and three different badge captions |
| `SystemStatus.CountStatus` | src/pages/SystemStatus.tsx:109-111 | a per-status count never exceeds the number of components |
| `SystemStatus.CountsCoverAll` | src/pages/SystemStatus.tsx:109-111 | the online, warning and offline counts add up to the number of components |
| `SystemStatus.CountZeroIffNone` | src/pages/SystemStatus.tsx:109-111 | a count is zero exactly when no component has that status |
| `SystemStatus.WarningAlert` | src/pages/SystemStatus.tsx:183-191 | the banner is shown exactly when the warning count is positive; its text starts with that count, then "component", with "components" exactly when the count exceeds one, ends with the fixed prose, and has exactly the length of those pieces, so nothing else sits between them |
| `SystemStatus.AlertRest` | src/pages/SystemStatus.tsx:187-188 | the text after the count starts with " component", has " components " exactly when the count exceeds one, and ends with the banner's two lines joined by one space |
| `SystemStatus.MetricBars` | src/pages/SystemStatus.tsx:231-253 | the metrics block is shown exactly when load or memory is defined; it holds one bar per defined field; the first bar is the load bar when load is defined and the last is the memory bar when memory is defined, each with its field's value in the load colour |
| `SystemStatus.BarShownIffDefined` | src/pages/SystemStatus.tsx:231-253 | a component shows a bar for a metric exactly when that metric's reading is defined, and that bar shows the reading |

## Left out

- Rendering is left out: JSX, CSS classes, the spinner, scrolling, the tabs, and every static card and figure. The DataProcessing page's `getStatusIcon` is drawing only, so it is left out too. Toasts are kept as event tags where they depend on the logic: the missing-path notice and the completion notice. The chat reply's "Query Processed" toast is left out because it always fires with the reply.
- Timers are left out. `setTimeout` and `setInterval` become explicit events (`Start`, `Tick`, `Reply`), and `Date` becomes a millisecond `nat` passed in as `now`. Nothing models cancelling timers when a page unmounts, and the source has no such cancellation either.
- Ids of the form `Date.now().toString()` are kept as the millisecond number, not its decimal string. `DataProcessing.SubmitEstablishes` needs the new id to be fresh. The source does not guarantee this: two uploads in the same millisecond would share an id.
- DataProcessing.Tick: `Math.random() * 15` becomes a natural-number step of any size, and progress is an integer percentage rather than a float. The record count `Math.floor(acc * 15000 / 100)` is exact on integers.
- DataProcessing.CompletesWithinBound: this assumes that every tick's step is at least 1. The source can draw a step of 0, so no tick bound holds for every run.
- The `isUploading` flag is left out. It is set and cleared in the same synchronous call, so it never guards anything.
- The Upload button's `disabled={isUploading || !filePath.trim()}` (src/pages/DataProcessing.tsx:217) is not modelled. In the page a blank path never reaches `handleFileUpload`, so the blank-path branch of `DataProcessing.Submit` and its `PathMissing` notice are reachable only by calling `handleFileUpload` directly.
- Text.Trim: the contract states the two ends and the length bound only; that the kept text is the middle of the input follows from the contracts of `Text.TrimStart` and `Text.TrimEnd` and is not restated for the composition.
- SystemStatus.LoadColor: loads are real numbers, so fractional loads are covered, but JavaScript's `NaN` and infinities are not. `NaN` fails both comparisons and gets the destructive colour.
- QueryHistory.Filter: `toLowerCase` is modelled for ASCII letters only, not with Unicode's full case mapping.
- The response-time average, `formatDuration`, `Math.round` of progress, `toLocaleString` and `toLocaleTimeString` are left out. They are floating-point or locale display, and the average also divides by zero on an empty history. The `duration` field of a query-history entry is dropped for the same reason.
- The sample arrays of the query-history and system-status pages are left out. They are fixtures, and the properties above hold for every list. The model keeps the sample jobs (`DataProcessing.SampleJobs`, used by `DataProcessing.SubmitOnSampleJobs`) and the chat greeting (`Chat.Initial`, used by `Chat.SessionFromGreeting`).
- In SystemStatus, a component's response time is shown only when it is a non-empty string. That is presentation, so it is left out.
- `Dashboard.tsx`, `Home.tsx`, `AppLayout.tsx`, `AppSidebar.tsx` and `App.tsx` are static markup, state setters and routing. They are not part of this model.

=== FILE: chat.dfy ===
/**
  The chat page's simulated conversation.

  Sending appends the user's message and schedules one reply; until the reply
  arrives the page refuses further sends. The reply quotes the submitted text
  and cites three fixed sources. The reply timer is an explicit `Reply` event
  carrying the clock reading.
 */
module Chat {
  import opened Wrappers
  import Text

  datatype Role = User | Assistant

  /** Message ids are `Date.now().toString()` (plus one for replies); the
      model keeps the millisecond count. */
  datatype Message = Message(id: nat, role: Role, content: string, timestamp: nat, sources: Option<seq<string>>)

  /** The page state. `inFlight` is `Some(text)` while the reply to `text` is
      scheduled: it stands for the `isLoading` flag together with the input
      value the reply timer captured, which the page sets and clears together. */
  datatype ChatState = ChatState(messages: seq<Message>, input: string, inFlight: Option<string>) {
    predicate Loading() {
      inFlight.Some?
    }
  }

  const Greeting: string :=
    "Hello! I'm OceanGPT, your oceanographic AI assistant. I can help you analyze ocean data, "
    + "answer questions about marine science, and generate visualizations from ARGO float data. "
    + "What would you like to explore today?"

  /** The page as it first renders: the greeting and an empty input. */
  const Initial: ChatState := ChatState([Message(1, Assistant, Greeting, 0, None)], "", None)

  const ReplyPrefix: string := "I understand you're asking about "
  const ReplySuffix: string :=
    ". This is a simulated response from OceanGPT. In the real system, I would query the RAG "
    + "pipeline to search oceanographic literature, retrieve relevant ARGO float data from "
    + "PostgreSQL, and provide scientifically accurate information with proper citations and "
    + "data visualizations."

  /** The sources every reply cites. */
  const ReplySources: seq<string> :=
    ["ARGO Float Dataset #12345", "Ocean Temperature Atlas 2023", "Marine Biology Research Paper #67890"]

  /** The canned questions of the sidebar. */
  const QuickQueries: seq<string> := [
    "Show temperature profiles for the North Atlantic",
    "What is the salinity range in the Pacific Ocean?",
    "Generate a T-S diagram for recent ARGO data",
    "Explain ocean acidification trends",
    "Compare temperature data across different depths"
  ]

  /** The reply text for a question: the question between double quotes,
      inside fixed prose. */
  function ReplyText(asked: string): (r: string)
    ensures IsReplyTo(r, asked)
  {
    Text.QuoteShapeIffQuote(Text.Quote(ReplyPrefix, asked, ReplySuffix), ReplyPrefix, ReplySuffix, asked);
    Text.Quote(ReplyPrefix, asked, ReplySuffix)
  }

  /** `content` has the shape of a reply: the fixed prose with `asked`
      between the double quotes. */
  predicate IsReplyTo(content: string, asked: string) {
    Text.QuoteShape(content, ReplyPrefix, ReplySuffix, asked)
  }

  /** The reply shape determines the question: a text is a reply to `asked`
      exactly when it is the reply text of `asked`, so different questions
      get different replies. */
  lemma ReplyShapeIsReplyText(content: string, asked: string)
    ensures IsReplyTo(content, asked) <==> content == ReplyText(asked)
  {
    Text.QuoteShapeIffQuote(content, ReplyPrefix, ReplySuffix, asked);
  }

  /** The guard of `handleSendMessage`, which is also the enable condition of
      the Send button: a non-blank input and no reply pending. */
  predicate CanSend(s: ChatState)
    ensures CanSend(s) <==> Text.Trim(s.input) != [] && s.inFlight == None
  {
    Text.TrimEmptyIffBlank(s.input);
    !Text.Blank(s.input) && !s.Loading()
  }

  /** `handleSendMessage` up to the point where it schedules the reply. */
  function Send(s: ChatState, now: nat): (r: ChatState)
    ensures !CanSend(s) ==> r == s
    ensures CanSend(s) ==>
      && |r.messages| == |s.messages| + 1
      && r.messages[..|s.messages|] == s.messages
      && r.messages[|s.messages|].role == User
      && r.messages[|s.messages|].content == s.input
      && r.messages[|s.messages|].sources == None
      && r.input == ""
      && r.inFlight == Some(s.input)
  {
    if !CanSend(s) then s
    else
      var sent := Message(now, User, s.input, now, None);
      ChatState(s.messages + [sent], "", Some(s.input))
  }

  /** The reply timer firing at `now`: one assistant message quoting the
      captured question, with the three sources, and the page is idle again. */
  function Reply(s: ChatState, now: nat): (r: ChatState)
    requires s.Loading()
    ensures |r.messages| == |s.messages| + 1
    ensures r.messages[..|s.messages|] == s.messages
    ensures var m := r.messages[|s.messages|];
      && m.role == Assistant
      && IsReplyTo(m.content, s.inFlight.value)
      && m.sources == Some(ReplySources)
    ensures !r.Loading() && r.input == s.input
  {
    var answer := Message(now + 1, Assistant, ReplyText(s.inFlight.value), now, Some(ReplySources));
    ChatState(s.messages + [answer], s.input, None)
  }

  /** `handleKeyPress`: Enter without Shift sends. */
  function KeyPress(s: ChatState, key: string, shift: bool, now: nat): (r: ChatState)
    ensures |r.messages| >= |s.messages| && r.messages[..|s.messages|] == s.messages
    ensures r != s ==> r.input == "" && r.inFlight == Some(s.input)
  {
    if key == "Enter" && !shift then Send(s, now) else s
  }

  /** The input box's `onChange`; the box is disabled while a reply is pending. */
  function Edit(s: ChatState, text: string): (r: ChatState)
    ensures r.messages == s.messages && r.inFlight == s.inFlight
    ensures r.input == if s.Loading() then s.input else text
  {
    if s.Loading() then s else s.(input := text)
  }

  /** `handleQuickQuery`: a sidebar button copies its question into the input. */
  function QuickQuery(s: ChatState, k: nat): (r: ChatState)
    requires k < |QuickQueries|
    ensures r.messages == s.messages && r.inFlight == s.inFlight
    ensures r.input == QuickQueries[k]
  {
    s.(input := QuickQueries[k])
  }

  /** The Send button is enabled exactly when a click would send. */
  lemma SendButtonMatchesGuard(s: ChatState, now: nat)
    ensures CanSend(s) <==> |Send(s, now).messages| == |s.messages| + 1
  {
  }

  /** A key press sends exactly when the key is Enter without Shift and the
      guard accepts; Shift+Enter and every other key leave the page as it was. */
  lemma KeyPressSendsOnlyOnEnter(s: ChatState, key: string, shift: bool, now: nat)
    ensures |KeyPress(s, key, shift, now).messages| > |s.messages| <==> key == "Enter" && !shift && CanSend(s)
    ensures !(key == "Enter" && !shift) ==> KeyPress(s, key, shift, now) == s
  {
  }

  /** Every quick query can be sent at once when no reply is pending. */
  lemma QuickQueryIsSendable(s: ChatState, k: nat)
    requires k < |QuickQueries| && !s.Loading()
    ensures CanSend(QuickQuery(s, k))
  {
    var q := QuickQueries[k];
    assert |q| > 0 && !Text.IsWhitespace(q[|q| - 1]) by {
      if k == 0 { assert q == "Show temperature profiles for the North Atlantic"; }
      else if k == 1 { assert q == "What is the salinity range in the Pacific Ocean?"; }
      else if k == 2 { assert q == "Generate a T-S diagram for recent ARGO data"; }
      else if k == 3 { assert q == "Explain ocean acidification trends"; }
      else { assert q == "Compare temperature data across different depths"; }
    }
    Text.NotBlankWhenVisible(q, |q| - 1);
  }

  /** One exchange: from an idle page with a non-blank input, sending and then
      the reply grow the log by two, the user's message at length-2 holding
      the raw input and the assistant's at length-1 quoting it. */
  lemma ExchangeAppendsTwo(s: ChatState, sentAt: nat, repliedAt: nat)
    requires CanSend(s)
    ensures var r := Reply(Send(s, sentAt), repliedAt);
      && |r.messages| == |s.messages| + 2
      && r.messages[..|s.messages|] == s.messages
      && r.messages[|r.messages| - 2].role == User
      && r.messages[|r.messages| - 2].content == s.input
      && r.messages[|r.messages| - 1].role == Assistant
      && IsReplyTo(r.messages[|r.messages| - 1].content, s.input)
      && r.messages[|r.messages| - 1].sources == Some(ReplySources)
      && !r.Loading() && r.input == ""
  {
    var a := Send(s, sentAt);
    assert a.inFlight == Some(s.input);
    var r := Reply(a, repliedAt);
    var m := r.messages[|a.messages|];
    assert IsReplyTo(m.content, s.input);
    assert r.messages == a.messages + [m];
    SnocSlices(a.messages, m, |s.messages|);
  }

  // ---------------------------------------------------------------------------
  // Sessions

  /** Everything that can happen on the page, in order. */
  datatype Event =
    | Typed(text: string)
    | QuickPicked(k: nat)
    | KeyPressed(key: string, shift: bool, at: nat)
    | SendClicked(at: nat)
    | ReplyArrived(at: nat)

  /** One event. A quick query index past the list names no button, and the
      reply timer exists only while a reply is pending. */
  function Step(s: ChatState, e: Event): ChatState {
    match e
    case Typed(text) => Edit(s, text)
    case QuickPicked(k) => if k < |QuickQueries| then QuickQuery(s, k) else s
    case KeyPressed(key, shift, at) => KeyPress(s, key, shift, at)
    case SendClicked(at) => Send(s, at)
    case ReplyArrived(at) => if s.Loading() then Reply(s, at) else s
  }

  function Run(s: ChatState, events: seq<Event>): ChatState
    decreases |events|
  {
    if events == [] then s else Step(Run(s, events[..|events| - 1]), events[|events| - 1])
  }

  /** What a session adds to the log: question-and-reply pairs, possibly
      followed by one question whose reply is pending. Each question is a
      non-blank user message; each reply is an assistant message holding the
      reply text of the question before it; and the pending reply, if any,
      holds the text of the last question. */
  predicate Exchanges(added: seq<Message>, inFlight: Option<string>)
    decreases |added|
  {
    if added == [] then inFlight == None
    else
      var last := added[|added| - 1];
      var earlier := added[..|added| - 1];
      match inFlight
      case Some(asked) =>
        && last.role == User && last.content == asked && !Text.Blank(asked)
        && Exchanges(earlier, None)
      case None =>
        && last.role == Assistant
        && earlier != []
        && last.content == ReplyText(earlier[|earlier| - 1].content)
        && Exchanges(earlier, Some(earlier[|earlier| - 1].content))
  }

  /** Sending from a state whose additions are complete exchanges opens a
      new one. */
  lemma ExchangesAfterSend(added: seq<Message>, m: Message)
    requires Exchanges(added, None) && m.role == User && !Text.Blank(m.content)
    ensures Exchanges(added + [m], Some(m.content))
  {
    assert (added + [m])[..|added|] == added;
  }

  /** The reply closes the open exchange. */
  lemma ExchangesAfterReply(added: seq<Message>, asked: string, m: Message)
    requires Exchanges(added, Some(asked)) && m.role == Assistant && IsReplyTo(m.content, asked)
    ensures Exchanges(added + [m], None)
  {
    ReplyShapeIsReplyText(m.content, asked);
    assert m.content == ReplyText(asked);
    assert added != [] && added[|added| - 1].content == asked;
    assert (added + [m])[..|added|] == added;
  }

  /** The exchanges read position by position: user and assistant messages
      alternate starting with the user's, and a reply is pending exactly
      when the count is odd. */
  lemma {:induction false} ExchangesAlternate(added: seq<Message>, inFlight: Option<string>)
    requires Exchanges(added, inFlight)
    ensures |added| % 2 == 1 <==> inFlight.Some?
    ensures forall i :: 0 <= i < |added| ==> added[i].role == (if i % 2 == 0 then User else Assistant)
    decreases |added|
  {
    if added != [] {
      var n := |added| - 1;
      var earlier := added[..n];
      ExchangesAlternate(earlier, if inFlight.Some? then None else Some(earlier[n - 1].content));
      forall i | 0 <= i < n
        ensures added[i].role == (if i % 2 == 0 then User else Assistant)
      {
        assert added[i] == earlier[i];
      }
    }
  }

  /** Every question of the exchanges is non-blank and every reply quotes the
      question before it. */
  lemma {:induction false} ExchangesQuote(added: seq<Message>, inFlight: Option<string>)
    requires Exchanges(added, inFlight)
    ensures forall i :: 0 <= i < |added| && added[i].role == User ==> !Text.Blank(added[i].content)
    ensures forall i :: 0 < i < |added| && added[i].role == Assistant ==> IsReplyTo(added[i].content, added[i - 1].content)
    decreases |added|
  {
    if added != [] {
      var n := |added| - 1;
      var earlier := added[..n];
      ExchangesQuote(earlier, if inFlight.Some? then None else Some(earlier[n - 1].content));
      forall i | 0 <= i < n
        ensures added[i] == earlier[i]
      {
      }
      if inFlight.None? {
        ReplyShapeIsReplyText(added[n].content, added[n - 1].content);
      }
    }
  }

  /** An event either leaves the log and the pending reply alone, or is an
      accepted send, or is the arrival of the pending reply. */
  lemma StepCases(s: ChatState, e: Event)
    ensures var r := Step(s, e);
      || (r.messages == s.messages && r.inFlight == s.inFlight)
      || (CanSend(s) && exists at :: r == Send(s, at))
      || (s.Loading() && exists at :: r == Reply(s, at))
  {
    match e
    case KeyPressed(key, shift, at) =>
      if key == "Enter" && !shift && CanSend(s) {
        assert Step(s, e) == Send(s, at);
      }
    case SendClicked(at) =>
      if CanSend(s) {
        assert Step(s, e) == Send(s, at);
      }
    case ReplyArrived(at) =>
      if s.Loading() {
        assert Step(s, e) == Reply(s, at);
      }
    case _ =>
  }

  /** Appending to a log keeps every prefix and extends every suffix. */
  lemma SnocSlices(xs: seq<Message>, m: Message, k: nat)
    requires k <= |xs|
    ensures (xs + [m])[..k] == xs[..k]
    ensures (xs + [m])[k..] == xs[k..] + [m]
  {
  }

  /** A session started on an idle page only appends to the log, and what it
      appends is a sequence of complete exchanges, possibly followed by one
      question awaiting its reply. */
  lemma {:induction false} SessionAppendsExchanges(s: ChatState, events: seq<Event>)
    requires !s.Loading()
    ensures var r := Run(s, events);
      && |r.messages| >= |s.messages|
      && r.messages[..|s.messages|] == s.messages
      && Exchanges(r.messages[|s.messages|..], r.inFlight)
    decreases |events|
  {
    if events == [] {
      assert s.messages[|s.messages|..] == [];
    } else {
      var prev := Run(s, events[..|events| - 1]);
      SessionAppendsExchanges(s, events[..|events| - 1]);
      var r := Step(prev, events[|events| - 1]);
      var before := prev.messages[|s.messages|..];
      StepCases(prev, events[|events| - 1]);
      if r.messages != prev.messages || r.inFlight != prev.inFlight {
        var m := r.messages[|prev.messages|];
        assert r.messages == prev.messages + [m];
        SnocSlices(prev.messages, m, |s.messages|);
        if prev.Loading() {
          ExchangesAfterReply(before, prev.inFlight.value, m);
        } else {
          ExchangesAfterSend(before, m);
        }
      }
    }
  }

  /** From the page as it first renders, the log is always the greeting
      followed by questions and replies that alternate, starting with a
      question; every question is non-blank and every reply quotes the
      question before it. */
  lemma SessionFromGreeting(events: seq<Event>)
    ensures |Run(Initial, events).messages| >= 1
    ensures var r := Run(Initial, events);
      var added := r.messages[1..];
      && r.messages[0].role == Assistant && r.messages[0].content == Greeting
      && (|added| % 2 == 1 <==> r.Loading())
      && (forall i :: 0 <= i < |added| ==> added[i].role == (if i % 2 == 0 then User else Assistant))
      && (forall i :: 0 <= i < |added| && added[i].role == User ==> !Text.Blank(added[i].content))
      && (forall i :: 0 < i < |added| && added[i].role == Assistant ==> IsReplyTo(added[i].content, added[i - 1].content))
  {
    var r := Run(Initial, events);
    SessionAppendsExchanges(Initial, events);
    assert r.messages[0] == r.messages[..1][0];
    ExchangesAlternate(r.messages[1..], r.inFlight);
    ExchangesQuote(r.messages[1..], r.inFlight);
  }
}

=== FILE: data_processing.dfy ===
/**
  The data-processing page's simulated upload queue.

  A submitted file path becomes a `pending` job at the head of the job list;
  one timer later moves it to `processing`, and a repeating timer then adds a
  random step to a running accumulator until it reaches 100, when the job is
  `completed`. Time and randomness are explicit here: every event carries the
  clock reading `now`, and every tick carries its step.
 */
module DataProcessing {
  import opened Wrappers
  import Text

  /** Job ids are `Date.now().toString()`; the model keeps the millisecond count. */
  type JobId = nat

  datatype Status = Pending | Processing | Completed | Error

  datatype Job = Job(
    id: JobId,
    filename: string,
    status: Status,
    progress: nat,
    size: string,
    startTime: Option<nat>,
    endTime: Option<nat>,
    recordsProcessed: Option<nat>,
    errorMessage: Option<string>)

  /** The size label every new job is given. */
  const NewJobSize: string := "156.3 MB"
  /** Progress is a percentage. */
  const FullProgress: nat := 100
  /** The record count a completed job reports. */
  const TotalRecords: nat := 15000

  /** The jobs the page starts with. */
  const SampleJobs: seq<Job> := [
    Job(1, "ARGO_2024_001_temperature.nc", Completed, 100, "45.2 MB", Some(0), Some(120000), Some(12543), None),
    Job(2, "biogeochemical_sensors_pacific.nc", Processing, 67, "128.7 MB", Some(420000), None, Some(8721), None),
    Job(3, "salinity_data_atlantic_2024.nc", Pending, 0, "89.1 MB", None, None, None, None)
  ]

  // ---------------------------------------------------------------------------
  // File name derivation: `filePath.split('/').pop() || filePath`

  /** `s.split('/')`: the pieces between separators, at least one, possibly empty. */
  function Split(s: string): (parts: seq<string>)
    ensures |parts| >= 1
    ensures forall k :: 0 <= k < |parts| ==> '/' !in parts[k]
  {
    if s == [] then [""]
    else if s[0] == '/' then [""] + Split(s[1..])
    else
      var rest := Split(s[1..]);
      [[s[0]] + rest[0]] + rest[1..]
  }

  /** `parts.join('/')`. */
  function Join(parts: seq<string>): string
    requires |parts| >= 1
  {
    if |parts| == 1 then parts[0] else parts[0] + "/" + Join(parts[1..])
  }

  /** Splitting loses nothing: joining the pieces gives the path back. */
  lemma {:induction false} JoinSplit(s: string)
    ensures Join(Split(s)) == s
  {
    if s != [] {
      JoinSplit(s[1..]);
      if s[0] != '/' {
        var rest := Split(s[1..]);
        if |rest| > 1 {
          assert Join(rest) == rest[0] + "/" + Join(rest[1..]);
        }
        assert s == [s[0]] + s[1..];
      }
    }
  }

  /** The last piece of the split: the text after the last `/`, all of `s`
      when there is none. */
  lemma {:induction false} LastPieceIsTail(s: string)
    ensures var last := Split(s)[|Split(s)| - 1];
      && |last| <= |s| && last == s[|s| - |last|..]
      && (|last| == |s| || s[|s| - |last| - 1] == '/')
      && (|last| == |s| ==> |Split(s)| == 1)
  {
    if s != [] {
      var parts, rest := Split(s), Split(s[1..]);
      LastPieceIsTail(s[1..]);
      if s[0] != '/' && |rest| == 1 {
        JoinSplit(s[1..]);
        assert parts[|parts| - 1] == s;
      } else {
        assert parts[|parts| - 1] == rest[|rest| - 1];
        assert s[1..][|s| - 1 - |rest[|rest| - 1]|..] == s[|s| - |rest[|rest| - 1]|..];
      }
    }
  }

  /** The displayed name of a job made from `path`. */
  function FileName(path: string): (name: string)
    ensures |name| <= |path| && name == path[|path| - |name|..]
    ensures path != [] ==> name != []
    ensures name == path || ('/' !in name && path[|path| - |name| - 1] == '/')
  {
    var parts := Split(path);
    LastPieceIsTail(path);
    var last := parts[|parts| - 1];
    if last == "" then path else last
  }

  /** A piece without `/` splits into itself. */
  lemma {:induction false} SplitNoSlash(s: string)
    requires '/' !in s
    ensures Split(s) == [s]
  {
    if s != [] {
      assert '/' !in s[1..] by {
        forall k | 0 <= k < |s| - 1
          ensures s[1..][k] != '/'
        {
          assert s[1..][k] == s[k + 1];
        }
      }
      SplitNoSlash(s[1..]);
      assert [s[0]] + s[1..] == s;
    }
  }

  /** Splitting at a `/` splits both sides independently. */
  lemma {:induction false} SplitAround(a: string, b: string)
    ensures Split(a + "/" + b) == Split(a) + Split(b)
  {
    var s := a + "/" + b;
    if a == [] {
      assert s == "/" + b && s[1..] == b;
    } else {
      assert s[0] == a[0] && s[1..] == a[1..] + "/" + b;
      SplitAround(a[1..], b);
    }
  }

  /** A path ending in `/` and a non-empty base name without `/` is named
      after that base name, whatever the directory part holds. */
  lemma FileNameIsBaseName(dir: string, base: string)
    requires base != [] && '/' !in base
    ensures FileName(dir + "/" + base) == base
  {
    SplitAround(dir, base);
    SplitNoSlash(base);
    var parts := Split(dir + "/" + base);
    assert parts[|parts| - 1] == base;
  }

  // ---------------------------------------------------------------------------
  // Map-by-id updates

  /** The three record updates the timers apply to a job. */
  datatype Patch =
    | Begin(at: nat)        // status 'processing' and a start time
    | Advance(acc: nat)     // progress and record count from the accumulator
    | Finish(at: nat)       // status 'completed', full progress and records

  function Apply(j: Job, p: Patch): (r: Job)
    ensures r.id == j.id && r.filename == j.filename && r.size == j.size
    ensures r.errorMessage == j.errorMessage
    ensures !p.Begin? ==> r.startTime == j.startTime
    ensures !p.Finish? ==> r.endTime == j.endTime
  {
    match p
    case Begin(at) => j.(status := Processing, startTime := Some(at))
    case Advance(acc) =>
      j.(progress := Min(acc, FullProgress), recordsProcessed := Some(acc * TotalRecords / 100))
    case Finish(at) =>
      j.(status := Completed, progress := FullProgress, endTime := Some(at),
         recordsProcessed := Some(TotalRecords))
  }

  function Min(a: nat, b: nat): nat {
    if a <= b then a else b
  }

  /** `jobs.map(job => job.id === id ? patched : job)`. */
  function MapById(jobs: seq<Job>, id: JobId, p: Patch): (r: seq<Job>)
    ensures |r| == |jobs|
    ensures forall i :: 0 <= i < |jobs| && jobs[i].id != id ==> r[i] == jobs[i]
    ensures forall i :: 0 <= i < |jobs| && jobs[i].id == id ==> r[i] == Apply(jobs[i], p)
  {
    if jobs == [] then []
    else
      var head := if jobs[0].id == id then Apply(jobs[0], p) else jobs[0];
      [head] + MapById(jobs[1..], id, p)
  }

  /** The first job with the given id. */
  function Find(jobs: seq<Job>, id: JobId): (r: Option<Job>)
    ensures r.Some? ==> r.value.id == id
  {
    if jobs == [] then None
    else if jobs[0].id == id then Some(jobs[0])
    else Find(jobs[1..], id)
  }

  /** Nothing is found exactly when no job carries the id. */
  lemma {:induction false} FindNone(jobs: seq<Job>, id: JobId)
    ensures Find(jobs, id).None? <==> forall i :: 0 <= i < |jobs| ==> jobs[i].id != id
  {
    if jobs != [] && jobs[0].id != id {
      FindNone(jobs[1..], id);
      assert forall i :: 1 <= i < |jobs| ==> jobs[i] == jobs[1..][i - 1];
    }
  }

  /** A map-by-id update patches the job found under its id and leaves the
      job found under any other id as it was. */
  lemma {:induction false} FindMapById(jobs: seq<Job>, id: JobId, p: Patch, other: JobId)
    ensures Find(MapById(jobs, id, p), other) ==
      if other == id && Find(jobs, id).Some? then Some(Apply(Find(jobs, id).value, p))
      else Find(jobs, other)
  {
    if jobs != [] {
      var r := MapById(jobs, id, p);
      assert r[1..] == MapById(jobs[1..], id, p);
      FindMapById(jobs[1..], id, p, other);
    }
  }

  /** With a fresh id at the head, a map-by-id update touches the head only. */
  lemma {:induction false} MapByIdFreshHead(head: Job, rest: seq<Job>, p: Patch)
    requires forall i :: 0 <= i < |rest| ==> rest[i].id != head.id
    ensures MapById([head] + rest, head.id, p) == [Apply(head, p)] + rest
  {
    var r := MapById([head] + rest, head.id, p);
    assert r[1..] == rest;
  }

  // ---------------------------------------------------------------------------
  // Submission

  /** The page's state: the job list and the path text box. */
  datatype Page = Page(jobs: seq<Job>, filePath: string)

  /** The toasts the page raises. */
  datatype Toast = PathMissing | ProcessingComplete(filename: string)

  /** Where the timers of one upload stand. */
  datatype Phase =
    | Scheduled   // the start timer is pending
    | Running     // the progress interval is active
    | Done        // the interval has been cleared

  /** The state the upload's timer callbacks close over: the job's id and
      file name, and the running progress accumulator. */
  datatype Upload = Upload(id: JobId, filename: string, acc: nat, phase: Phase)

  datatype Submitted = Submitted(page: Page, upload: Option<Upload>, toast: Option<Toast>)

  /** The job record a submission of `path` at time `now` creates. */
  function NewJob(path: string, now: nat): Job {
    Job(now, FileName(path), Pending, 0, NewJobSize, None, None, None, None)
  }

  /** `handleFileUpload` up to the point where it schedules the start timer. */
  function Submit(p: Page, now: nat): (r: Submitted)
    ensures Text.Blank(p.filePath) ==> r == Submitted(p, None, Some(PathMissing))
    ensures !Text.Blank(p.filePath) ==>
      && r.toast == None
      && r.page.filePath == ""
      && |r.page.jobs| == |p.jobs| + 1
      && r.page.jobs[1..] == p.jobs
      && r.page.jobs[0].id == now
      && r.page.jobs[0].status == Pending
      && r.page.jobs[0].progress == 0
      && r.page.jobs[0].size == NewJobSize
      && r.page.jobs[0].startTime == None && r.page.jobs[0].endTime == None
      && r.page.jobs[0].recordsProcessed == None && r.page.jobs[0].errorMessage == None
      && r.page.jobs[0].filename == FileName(p.filePath)
      && r.page.jobs[0].filename != []
      && Text.EndsWith(p.filePath, r.page.jobs[0].filename)
      && r.upload == Some(Upload(now, r.page.jobs[0].filename, 0, Scheduled))
  {
    if Text.Blank(p.filePath) then Submitted(p, None, Some(PathMissing))
    else
      var job := NewJob(p.filePath, now);
      Submitted(Page([job] + p.jobs, ""), Some(Upload(now, job.filename, 0, Scheduled)), None)
  }

  // ---------------------------------------------------------------------------
  // Timer callbacks

  datatype Stepped = Stepped(jobs: seq<Job>, upload: Upload, toast: Option<Toast>)

  /** The start timer: the job becomes `processing` with a start time, and the
      progress interval begins with a zero accumulator. */
  function Start(jobs: seq<Job>, u: Upload, now: nat): (r: Stepped)
    requires u.phase == Scheduled
    ensures |r.jobs| == |jobs| && r.toast == None
    ensures forall i :: 0 <= i < |jobs| && jobs[i].id != u.id ==> r.jobs[i] == jobs[i]
    ensures forall i :: 0 <= i < |jobs| && jobs[i].id == u.id ==>
      r.jobs[i] == jobs[i].(status := Processing, startTime := Some(now))
    ensures r.upload == u.(phase := Running)
  {
    Stepped(MapById(jobs, u.id, Begin(now)), u.(phase := Running), None)
  }

  /** One firing of the progress interval, with `step` standing for
      `Math.random() * 15`. The progress update stores the clamped
      accumulator and the record count of the unclamped one; when the
      accumulator has reached 100 the completion update follows within the
      same callback, the interval is cleared and a toast is raised. A tick
      after the interval is cleared does nothing. */
  function Tick(jobs: seq<Job>, u: Upload, step: nat, now: nat): (r: Stepped)
    requires u.phase != Scheduled
    ensures u.phase == Done ==> r == Stepped(jobs, u, None)
    ensures u.phase == Running ==>
      && r.upload.id == u.id && r.upload.filename == u.filename
      && r.upload.acc == u.acc + step
      && (r.upload.phase == Done <==> u.acc + step >= FullProgress)
      && (r.toast.Some? <==> r.upload.phase == Done)
      && (r.toast.Some? ==> r.toast.value == ProcessingComplete(u.filename))
    ensures |r.jobs| == |jobs|
    ensures forall i :: 0 <= i < |jobs| && jobs[i].id != u.id ==> r.jobs[i] == jobs[i]
  {
    if u.phase == Done then Stepped(jobs, u, None)
    else
      var acc := u.acc + step;
      var advanced := MapById(jobs, u.id, Advance(acc));
      if acc >= FullProgress then
        Stepped(MapById(advanced, u.id, Finish(now)), u.(acc := acc, phase := Done),
                Some(ProcessingComplete(u.filename)))
      else
        Stepped(advanced, u.(acc := acc), None)
  }

  /** Ticks in order, each a step and the clock reading it fires at. */
  datatype TickEvent = TickEvent(step: nat, at: nat)

  function RunTicks(jobs: seq<Job>, u: Upload, ticks: seq<TickEvent>): (r: Stepped)
    requires u.phase != Scheduled
    ensures r.upload.phase != Scheduled
    ensures r.upload.id == u.id && r.upload.filename == u.filename
    ensures |r.jobs| == |jobs|
    decreases |ticks|
  {
    if ticks == [] then Stepped(jobs, u, None)
    else
      var s := Tick(jobs, u, ticks[0].step, ticks[0].at);
      RunTicks(s.jobs, s.upload, ticks[1..])
  }

  // ---------------------------------------------------------------------------
  // The job lifecycle invariant

  /** How the job record of an upload looks in each phase, given that every
      event so far happened at or before `clock`. */
  predicate Tracks(u: Upload, j: Job, clock: nat) {
    && j.id == u.id && j.filename == u.filename && j.size == NewJobSize
    && j.errorMessage == None
    && match u.phase
       case Scheduled =>
         && j.status == Pending && j.progress == 0 && u.acc == 0
         && j.startTime == None && j.endTime == None && j.recordsProcessed == None
       case Running =>
         && j.status == Processing && u.acc < FullProgress && j.progress == u.acc
         && j.startTime.Some? && j.startTime.value <= clock && j.endTime == None
         && (j.recordsProcessed == None ==> u.acc == 0)
         && (j.recordsProcessed.Some? ==> j.recordsProcessed.value == u.acc * TotalRecords / 100)
       case Done =>
         && j.status == Completed && j.progress == FullProgress && u.acc >= FullProgress
         && j.startTime.Some? && j.endTime.Some?
         && j.startTime.value <= j.endTime.value <= clock
         && j.recordsProcessed == Some(TotalRecords)
  }

  /** The job shown under the upload's id is the upload's job, as `Tracks`
      describes it. */
  predicate Consistent(jobs: seq<Job>, u: Upload, clock: nat) {
    var f := Find(jobs, u.id);
    f.Some? && Tracks(u, f.value, clock)
  }

  function Rank(s: Status): nat {
    match s
    case Pending => 0
    case Processing => 1
    case Completed => 2
    case Error => 3
  }

  /** The upload's job is never in the `error` state. */
  lemma ConsistentNeverError(jobs: seq<Job>, u: Upload, clock: nat)
    requires Consistent(jobs, u, clock)
    ensures Find(jobs, u.id).value.status != Error
    ensures Find(jobs, u.id).value.progress <= FullProgress
  {
  }

  /** Advancing the clock keeps the invariant. */
  lemma TracksLater(u: Upload, j: Job, clock: nat, later: nat)
    requires Tracks(u, j, clock) && clock <= later
    ensures Tracks(u, j, later)
  {
  }

  /** An accepted submission with a fresh id starts a consistent upload and
      leaves every other upload's job where it was. */
  lemma SubmitEstablishes(p: Page, now: nat, v: Upload, clock: nat)
    requires !Text.Blank(p.filePath)
    requires forall i :: 0 <= i < |p.jobs| ==> p.jobs[i].id != now
    ensures var r := Submit(p, now);
      && r.upload.Some?
      && Consistent(r.page.jobs, r.upload.value, now)
      && (Consistent(p.jobs, v, clock) ==> Consistent(r.page.jobs, v, clock))
  {
    var job := NewJob(p.filePath, now);
    var jobs := [job] + p.jobs;
    assert Submit(p, now) == Submitted(Page(jobs, ""), Some(Upload(now, job.filename, 0, Scheduled)), None);
    assert Find(jobs, now) == Some(job);
    if Consistent(p.jobs, v, clock) {
      FindNone(p.jobs, now);
      assert v.id != now;
      assert jobs[1..] == p.jobs;
      assert Find(jobs, v.id) == Find(p.jobs, v.id);
    }
  }

  /** The sample jobs carry the ids 1, 2 and 3, so a submission at any other
      time starts a consistent upload on the page as it first loads. */
  lemma SubmitOnSampleJobs(path: string, now: nat)
    requires !Text.Blank(path) && now != 1 && now != 2 && now != 3
    ensures var r := Submit(Page(SampleJobs, path), now);
      && r.upload.Some?
      && Consistent(r.page.jobs, r.upload.value, now)
  {
    var p := Page(SampleJobs, path);
    assert forall i :: 0 <= i < |p.jobs| ==> p.jobs[i].id == i + 1;
    SubmitEstablishes(p, now, Upload(0, "", 0, Scheduled), 0);
  }

  /** The start timer moves the job from `pending` to `processing` with a
      start time no later than the clock. */
  lemma StartPreserves(jobs: seq<Job>, u: Upload, clock: nat, now: nat)
    requires u.phase == Scheduled && Consistent(jobs, u, clock) && clock <= now
    ensures var r := Start(jobs, u, now);
      && Consistent(r.jobs, r.upload, now)
      && Find(jobs, u.id).value.status == Pending
      && Find(r.jobs, u.id).value.status == Processing
      && Find(r.jobs, u.id).value.startTime == Some(now)
  {
    FindMapById(jobs, u.id, Begin(now), u.id);
  }

  /** One tick of a running upload keeps the invariant; the stored progress
      is the clamped accumulator, never decreases and never exceeds 100, and
      once the accumulator reaches 100 the job is `completed` with full
      progress, all records and an end time. */
  lemma TickPreserves(jobs: seq<Job>, u: Upload, clock: nat, step: nat, now: nat)
    requires u.phase == Running && Consistent(jobs, u, clock) && clock <= now
    ensures var r := Tick(jobs, u, step, now);
      var before := Find(jobs, u.id).value;
      && Consistent(r.jobs, r.upload, now)
      && var after := Find(r.jobs, u.id).value;
      && after.progress == Min(u.acc + step, FullProgress)
      && before.progress <= after.progress <= FullProgress
      && after.startTime == before.startTime
      && Rank(before.status) <= Rank(after.status)
      && (u.acc + step >= FullProgress ==>
            && after.status == Completed && after.progress == FullProgress
            && after.recordsProcessed == Some(TotalRecords)
            && after.endTime == Some(now))
  {
    var acc := u.acc + step;
    var before := Find(jobs, u.id).value;
    if acc >= FullProgress {
      TickFinishes(jobs, u, step, now);
      FinishTracks(u, before, clock, step, now);
    } else {
      TickAdvances(jobs, u, step, now);
      AdvanceTracks(u, before, clock, step, now);
    }
  }

  /** A tick that leaves the accumulator below 100 patches the upload's job
      with the progress update only. */
  lemma TickAdvances(jobs: seq<Job>, u: Upload, step: nat, now: nat)
    requires u.phase == Running && Find(jobs, u.id).Some?
    requires u.acc + step < FullProgress
    ensures var r := Tick(jobs, u, step, now);
      && r.upload == u.(acc := u.acc + step)
      && Find(r.jobs, u.id) == Some(Apply(Find(jobs, u.id).value, Advance(u.acc + step)))
  {
    FindMapById(jobs, u.id, Advance(u.acc + step), u.id);
  }

  /** The tick that brings the accumulator to 100 patches the upload's job
      with the progress update and then the completion update. */
  lemma TickFinishes(jobs: seq<Job>, u: Upload, step: nat, now: nat)
    requires u.phase == Running && Find(jobs, u.id).Some?
    requires u.acc + step >= FullProgress
    ensures var r := Tick(jobs, u, step, now);
      && r.upload == u.(acc := u.acc + step, phase := Done)
      && Find(r.jobs, u.id)
         == Some(Apply(Apply(Find(jobs, u.id).value, Advance(u.acc + step)), Finish(now)))
  {
    var advanced := MapById(jobs, u.id, Advance(u.acc + step));
    FindMapById(jobs, u.id, Advance(u.acc + step), u.id);
    FindMapById(advanced, u.id, Finish(now), u.id);
  }

  /** The progress update of a tick that leaves the accumulator below 100,
      on the job record alone. */
  lemma AdvanceTracks(u: Upload, j: Job, clock: nat, step: nat, now: nat)
    requires u.phase == Running && Tracks(u, j, clock) && clock <= now
    requires u.acc + step < FullProgress
    ensures var after := Apply(j, Advance(u.acc + step));
      && Tracks(u.(acc := u.acc + step), after, now)
      && after.progress == u.acc + step && after.status == j.status
      && after.startTime == j.startTime
  {
  }

  /** The progress and completion updates of the tick that brings the
      accumulator to 100, on the job record alone. */
  lemma FinishTracks(u: Upload, j: Job, clock: nat, step: nat, now: nat)
    requires u.phase == Running && Tracks(u, j, clock) && clock <= now
    requires u.acc + step >= FullProgress
    ensures var after := Apply(Apply(j, Advance(u.acc + step)), Finish(now));
      && Tracks(u.(acc := u.acc + step, phase := Done), after, now)
      && after.status == Completed && after.progress == FullProgress
      && after.recordsProcessed == Some(TotalRecords) && after.endTime == Some(now)
      && after.startTime == j.startTime
  {
  }

  /** Once the interval is cleared the job never changes again. */
  lemma {:induction false} DoneIsFinal(jobs: seq<Job>, u: Upload, ticks: seq<TickEvent>)
    requires u.phase == Done
    ensures RunTicks(jobs, u, ticks) == Stepped(jobs, u, None)
    decreases |ticks|
  {
    if ticks != [] {
      DoneIsFinal(jobs, u, ticks[1..]);
    }
  }

  /** A job whose ticks all make progress completes within 100 ticks, with
      progress 100 and all 15000 records. */
  lemma {:induction false} CompletesWithinBound(jobs: seq<Job>, u: Upload, clock: nat, ticks: seq<TickEvent>)
    requires u.phase == Running && Consistent(jobs, u, clock)
    requires forall k :: 0 <= k < |ticks| ==> ticks[k].step >= 1
    requires forall k :: 0 <= k < |ticks| ==> clock <= ticks[k].at
    requires forall k, l :: 0 <= k < l < |ticks| ==> ticks[k].at <= ticks[l].at
    requires u.acc + |ticks| >= FullProgress
    ensures var r := RunTicks(jobs, u, ticks);
      && r.upload.phase == Done
      && Consistent(r.jobs, r.upload, ticks[|ticks| - 1].at)
      && Find(r.jobs, u.id).value.status == Completed
      && Find(r.jobs, u.id).value.progress == FullProgress
      && Find(r.jobs, u.id).value.recordsProcessed == Some(TotalRecords)
    decreases |ticks|
  {
    var t := ticks[0];
    TickPreserves(jobs, u, clock, t.step, t.at);
    var s := Tick(jobs, u, t.step, t.at);
    if s.upload.phase == Done {
      DoneIsFinal(s.jobs, s.upload, ticks[1..]);
      assert RunTicks(jobs, u, ticks) == Stepped(s.jobs, s.upload, None);
      TracksLater(s.upload, Find(s.jobs, u.id).value, t.at, ticks[|ticks| - 1].at);
    } else {
      CompletesWithinBound(s.jobs, s.upload, t.at, ticks[1..]);
    }
  }

  /** Uploads running side by side do not disturb each other: a start or a
      tick of one upload leaves the job of any upload with another id as it
      was. */
  lemma StepsOfOthersPreserve(jobs: seq<Job>, u: Upload, v: Upload, clock: nat, step: nat, now: nat)
    requires u.id != v.id && Consistent(jobs, v, clock) && clock <= now
    ensures u.phase == Scheduled ==> Consistent(Start(jobs, u, now).jobs, v, now)
    ensures u.phase != Scheduled ==> Consistent(Tick(jobs, u, step, now).jobs, v, now)
    ensures u.phase == Scheduled ==> Find(Start(jobs, u, now).jobs, v.id) == Find(jobs, v.id)
    ensures u.phase != Scheduled ==> Find(Tick(jobs, u, step, now).jobs, v.id) == Find(jobs, v.id)
  {
    var j := Find(jobs, v.id).value;
    TracksLater(v, j, clock, now);
    if u.phase == Scheduled {
      FindMapById(jobs, u.id, Begin(now), v.id);
      assert Find(Start(jobs, u, now).jobs, v.id) == Some(j);
    } else if u.phase == Running {
      var acc := u.acc + step;
      var advanced := MapById(jobs, u.id, Advance(acc));
      FindMapById(jobs, u.id, Advance(acc), v.id);
      FindMapById(advanced, u.id, Finish(now), v.id);
      assert Find(Tick(jobs, u, step, now).jobs, v.id) == Some(j);
    }
  }

  /** The progress update alone can report more than 15000 records (the
      accumulator is not clamped there); the completion update in the same
      callback overwrites the count. */
  lemma OvershootIsOverwritten()
    ensures var j := Job(0, "a.nc", Processing, 99, NewJobSize, Some(1), None, Some(14850), None);
      && Apply(j, Advance(110)).recordsProcessed == Some(16500)
      && Tick([j], Upload(0, "a.nc", 99, Running), 11, 5).jobs[0].recordsProcessed == Some(TotalRecords)
  {
    var j := Job(0, "a.nc", Processing, 99, NewJobSize, Some(1), None, Some(14850), None);
    var advanced := MapById([j], 0, Advance(110));
    assert advanced == [Apply(j, Advance(110))];
  }

  // ---------------------------------------------------------------------------
  // Status badge

  datatype BadgeVariant = Secondary | Default | Destructive
  datatype Badge = Badge(variant: BadgeVariant, caption: string)

  /** `getStatusBadge`: the badge drawn for each status. */
  function StatusBadge(s: Status): (b: Badge)
    ensures b.variant == Destructive <==> s == Error
  {
    match s
    case Pending => Badge(Secondary, "Pending")
    case Processing => Badge(Default, "Processing")
    case Completed => Badge(Default, "Completed")
    case Error => Badge(Destructive, "Error")
  }

  /** Each status has its own badge caption. */
  lemma StatusLabelsDistinct(s: Status, t: Status)
    ensures StatusBadge(s).caption == StatusBadge(t).caption <==> s == t
  {
  }
}

=== FILE: query_history.dfy ===
/**
  The query-history page: a searchable, category-filtered list of past
  queries, a star toggle per entry, and relative timestamps.
 */
module QueryHistory {
  import opened Wrappers
  import Text

  datatype Category = Temperature | Salinity | Depth | Visualization | General

  /** A past query. The response time in seconds (a float used only for
      display) is not part of the model; timestamps are milliseconds. */
  datatype Item = Item(
    id: string,
    query: string,
    response: string,
    timestamp: int,
    sources: seq<string>,
    starred: bool,
    category: Category)

  /** The category selection: `'all'` or one category name. */
  datatype CategoryFilter = AllCategories | OnlyCategory(category: Category)

  // ---------------------------------------------------------------------------
  // Search

  /** The query or the response contains the search term, ignoring case. */
  predicate MatchesSearch(item: Item, term: string) {
    var t := Text.Lower(term);
    Text.Contains(Text.Lower(item.query), t) || Text.Contains(Text.Lower(item.response), t)
  }

  predicate MatchesCategory(item: Item, selected: CategoryFilter) {
    selected.AllCategories? || selected.category == item.category
  }

  predicate Keep(item: Item, term: string, selected: CategoryFilter) {
    MatchesSearch(item, term) && MatchesCategory(item, selected)
  }

  /** `a` is `b` with some elements left out and the rest in their order. */
  predicate IsSubsequence<T(==)>(a: seq<T>, b: seq<T>)
    decreases |b|
  {
    if a == [] then true
    else if b == [] then false
    else if a[0] == b[0] then IsSubsequence(a[1..], b[1..])
    else IsSubsequence(a, b[1..])
  }

  /** `filteredHistory`: the entries that match both the search term and the
      selected category, in history order. */
  function Filter(history: seq<Item>, term: string, selected: CategoryFilter): (r: seq<Item>)
    ensures IsSubsequence(r, history)
    ensures forall x :: multiset(r)[x] == if Keep(x, term, selected) then multiset(history)[x] else 0
    ensures forall x :: x in r <==> x in history && Keep(x, term, selected)
  {
    if history == [] then []
    else
      var rest := Filter(history[1..], term, selected);
      assert history == [history[0]] + history[1..];
      assert forall x :: x in history <==> x == history[0] || x in history[1..];
      if Keep(history[0], term, selected) then [history[0]] + rest else rest
  }

  /** With no search term and every category selected, nothing is filtered out. */
  lemma {:induction false} FilterNothing(history: seq<Item>)
    ensures Filter(history, "", AllCategories) == history
  {
    if history != [] {
      FilterNothing(history[1..]);
      Text.ContainsEmpty(Text.Lower(history[0].query));
    }
  }

  /** The search ignores the case of the term: upper-casing it selects the
      same entries. */
  lemma {:induction false} FilterIgnoresCase(history: seq<Item>, term: string, selected: CategoryFilter)
    ensures Filter(history, Text.Upper(term), selected) == Filter(history, term, selected)
  {
    Text.LowerOfUpper(term);
    if history != [] {
      FilterIgnoresCase(history[1..], term, selected);
    }
  }

  // ---------------------------------------------------------------------------
  // Stars

  /** `toggleStar(id)`: flips the star of the entries with that id. */
  function ToggleStar(history: seq<Item>, id: string): (r: seq<Item>)
    ensures |r| == |history|
    ensures forall i :: 0 <= i < |history| ==>
      r[i].starred == (history[i].starred != (history[i].id == id))
    ensures forall i :: 0 <= i < |history| ==> r[i].(starred := history[i].starred) == history[i]
  {
    if history == [] then []
    else
      var head := history[0];
      var head' := if head.id == id then head.(starred := !head.starred) else head;
      [head'] + ToggleStar(history[1..], id)
  }

  /** Toggling twice restores the history. */
  lemma ToggleStarTwice(history: seq<Item>, id: string)
    ensures ToggleStar(ToggleStar(history, id), id) == history
  {
    var r := ToggleStar(ToggleStar(history, id), id);
    forall i | 0 <= i < |history|
      ensures r[i] == history[i]
    {
    }
  }

  /** The number on the "Starred Results" card. */
  function StarredCount(history: seq<Item>): (r: nat)
    ensures r == 0 <==> forall i :: 0 <= i < |history| ==> !history[i].starred
  {
    if history == [] then 0
    else (if history[0].starred then 1 else 0) + StarredCount(history[1..])
  }

  /** The starred count never exceeds the "Total Queries" count. */
  lemma {:induction false} StarredAtMostTotal(history: seq<Item>)
    ensures StarredCount(history) <= |history|
  {
    if history != [] {
      StarredAtMostTotal(history[1..]);
    }
  }

  /** Toggling the star of the one entry with a given id moves the starred
      count by one: down when it was starred, up when it was not. */
  lemma {:induction false} ToggleStarCount(history: seq<Item>, k: nat)
    requires k < |history|
    requires forall i :: 0 <= i < |history| && i != k ==> history[i].id != history[k].id
    ensures StarredCount(ToggleStar(history, history[k].id))
      == StarredCount(history) + (if history[k].starred then -1 else 1)
  {
    var id := history[k].id;
    ToggleCountHead(history, id);
    if k == 0 {
      TailLacksHeadId(history);
      ToggleAbsent(history[1..], id);
    } else {
      TailKeepsUnique(history, k);
      ToggleStarCount(history[1..], k - 1);
    }
  }

  /** The starred count after a toggle, split into the first entry and the rest. */
  lemma ToggleCountHead(history: seq<Item>, id: string)
    requires history != []
    ensures StarredCount(ToggleStar(history, id))
      == (if history[0].starred != (history[0].id == id) then 1 else 0) + StarredCount(ToggleStar(history[1..], id))
  {
    var r := ToggleStar(history, id);
    assert r[1..] == ToggleStar(history[1..], id);
  }

  /** When the first entry's id is unique, the rest does not carry it. */
  lemma TailLacksHeadId(history: seq<Item>)
    requires history != []
    requires forall i :: 0 <= i < |history| && i != 0 ==> history[i].id != history[0].id
    ensures forall i :: 0 <= i < |history[1..]| ==> history[1..][i].id != history[0].id
  {
    forall i | 0 <= i < |history[1..]|
      ensures history[1..][i].id != history[0].id
    {
      assert history[1..][i] == history[i + 1];
    }
  }

  /** A later entry with a unique id keeps it unique in the rest. */
  lemma TailKeepsUnique(history: seq<Item>, k: nat)
    requires 0 < k < |history|
    requires forall i :: 0 <= i < |history| && i != k ==> history[i].id != history[k].id
    ensures history[1..][k - 1] == history[k]
    ensures forall i :: 0 <= i < |history[1..]| && i != k - 1 ==> history[1..][i].id != history[1..][k - 1].id
  {
    forall i | 0 <= i < |history[1..]| && i != k - 1
      ensures history[1..][i].id != history[1..][k - 1].id
    {
      assert history[1..][i] == history[i + 1];
    }
  }

  /** Toggling an id no entry carries changes nothing. */
  lemma ToggleAbsent(history: seq<Item>, id: string)
    requires forall i :: 0 <= i < |history| ==> history[i].id != id
    ensures ToggleStar(history, id) == history
  {
    var r := ToggleStar(history, id);
    forall i | 0 <= i < |history|
      ensures r[i] == history[i]
    {
    }
  }

  // ---------------------------------------------------------------------------
  // Relative timestamps

  const MsPerHour: nat := 1000 * 60 * 60

  /** The three shapes of a relative timestamp. */
  datatype Age = UnderAnHour | HoursAgo(hours: nat) | DaysAgo(days: nat)

  /** The age bucket of an entry `elapsedMs` milliseconds old: whole hours
      below a day, whole days from then on. A timestamp in the future counts
      as under an hour. */
  function AgeOf(elapsedMs: int): (a: Age)
    ensures a == UnderAnHour <==> elapsedMs < MsPerHour
    ensures a.HoursAgo? <==> MsPerHour <= elapsedMs < 24 * MsPerHour
    ensures a.HoursAgo? ==> a.hours * MsPerHour <= elapsedMs < (a.hours + 1) * MsPerHour
    ensures a.DaysAgo? ==> a.days >= 1 && a.days * 24 * MsPerHour <= elapsedMs < (a.days + 1) * 24 * MsPerHour
  {
    var hours := elapsedMs / MsPerHour;
    if hours < 1 then UnderAnHour
    else if hours < 24 then HoursAgo(hours)
    else DaysAgo(hours / 24)
  }

  /** The label of an age bucket. */
  function Render(a: Age): string {
    match a
    case UnderAnHour => "Less than 1 hour ago"
    case HoursAgo(h) => Text.NatToString(h) + " hour" + Text.Plural(h) + " ago"
    case DaysAgo(d) => Text.NatToString(d) + " day" + Text.Plural(d) + " ago"
  }

  /** `formatTimestamp`, with the clock reading `now` made explicit. */
  function FormatTimestamp(now: int, timestamp: int): (r: string)
    ensures r == "Less than 1 hour ago" <==> now - timestamp < MsPerHour
    ensures now - timestamp >= MsPerHour ==> Text.EndsWith(r, " ago") && Text.IsDigit(r[0])
  {
    ParseRender(AgeOf(now - timestamp));
    Render(AgeOf(now - timestamp))
  }

  /** Reads a label back into its age bucket. */
  function ParseAge(s: string): Option<Age> {
    if s == "Less than 1 hour ago" then Some(UnderAnHour)
    else
      var k := Text.DigitRun(s);
      if k == 0 then None
      else
        var n := Text.ParseDigits(s[..k]);
        var rest := s[k..];
        if rest == " hour ago" || rest == " hours ago" then Some(HoursAgo(n))
        else if rest == " day ago" || rest == " days ago" then Some(DaysAgo(n))
        else None
  }

  /** Every label reads back as the bucket it was made from, so different
      buckets never share a label. */
  lemma ParseRender(a: Age)
    ensures ParseAge(Render(a)) == Some(a)
  {
    match a
    case UnderAnHour =>
    case HoursAgo(h) => ParseCountLabel(h, " hour", " hour ago", " hours ago");
    case DaysAgo(d) => ParseCountLabel(d, " day", " day ago", " days ago");
  }

  /** A count label reads back as its digits followed by the singular or the
      plural unit. */
  lemma ParseCountLabel(n: nat, word: string, singular: string, plural: string)
    requires |word| > 0 && word[0] == ' '
    requires singular == word + " ago" && plural == word + "s ago"
    ensures var s := Text.NatToString(n) + word + Text.Plural(n) + " ago";
      var k := Text.DigitRun(s);
      && s != "Less than 1 hour ago"
      && k > 0
      && Text.ParseDigits(s[..k]) == n
      && s[k..] == (if n > 1 then plural else singular)
  {
    var unit := word + Text.Plural(n) + " ago";
    assert unit == (if n > 1 then plural else singular);
    assert Text.NatToString(n) + word + Text.Plural(n) + " ago" == Text.NatToString(n) + unit;
    ParseCount(n, unit);
  }

  /** A count followed by its unit: the digit run is exactly the count. */
  lemma ParseCount(n: nat, unit: string)
    requires |unit| > 0 && unit[0] == ' '
    ensures var s := Text.NatToString(n) + unit;
      && s != "Less than 1 hour ago"
      && Text.DigitRun(s) == |Text.NatToString(n)| > 0
      && Text.ParseDigits(s[..Text.DigitRun(s)]) == n
      && s[Text.DigitRun(s)..] == unit
  {
    var s := Text.NatToString(n) + unit;
    Text.CountThenRest(n, unit, unit);
    assert s[0] == Text.NatToString(n)[0];
    assert "Less than 1 hour ago"[0] == 'L';
  }

  /** The formatted timestamp names the bucket `AgeOf` describes. */
  lemma FormatTimestampBuckets(now: int, timestamp: int)
    ensures ParseAge(FormatTimestamp(now, timestamp)) == Some(AgeOf(now - timestamp))
  {
    ParseRender(AgeOf(now - timestamp));
  }

  /** The label ends in a plural `s` exactly when its count exceeds one. */
  lemma PluralOnlyAboveOne(a: Age)
    ensures Text.EndsWith(Render(a), "s ago") <==>
      (a.HoursAgo? && a.hours > 1) || (a.DaysAgo? && a.days > 1)
  {
    match a
    case UnderAnHour =>
      var s := Render(a);
      assert s[|s| - 5] == 'r';
    case HoursAgo(h) => CountLabelPlural(h, " hour");
    case DaysAgo(d) => CountLabelPlural(d, " day");
  }

  /** A count label ends in `s ago` exactly when the count exceeds one. */
  lemma CountLabelPlural(n: nat, word: string)
    requires |word| > 0 && word[|word| - 1] != 's'
    ensures Text.EndsWith(Text.NatToString(n) + word + Text.Plural(n) + " ago", "s ago") <==> n > 1
  {
    var s := Text.NatToString(n) + word + Text.Plural(n) + " ago";
    if n > 1 {
      assert s[|s| - 5..] == "s ago";
    } else {
      assert s[|s| - 5] == word[|word| - 1];
    }
  }
}

=== FILE: system_status.dfy ===
/**
  The system-status page: per-component health, load colouring, status
  counts and the warning banner.
 */
module SystemStatus {
  import opened Wrappers
  import Text

  datatype ComponentStatus = Online | Warning | Offline

  /** A monitored component. `load` and `memory` are percentages, JavaScript
      numbers that may be fractional, and may be absent. */
  datatype Component = Component(
    name: string,
    status: ComponentStatus,
    uptime: string,
    responseTime: Option<string>,
    load: Option<real>,
    memory: Option<real>,
    details: string)

  /** The colour classes the page uses, from least to most severe. */
  datatype Tone = Success | Caution | Destructive

  function Severity(t: Tone): nat {
    match t
    case Success => 0
    case Caution => 1
    case Destructive => 2
  }

  // ---------------------------------------------------------------------------
  // Load colour

  /** `getLoadColor`: green below 50, amber from 50 below 80, red from 80. */
  function LoadColor(load: real): (t: Tone)
    ensures t == Success <==> load < 50.0
    ensures t == Caution <==> 50.0 <= load < 80.0
    ensures t == Destructive <==> load >= 80.0
  {
    if load < 50.0 then Success
    else if load < 80.0 then Caution
    else Destructive
  }

  /** A higher load never gets a less severe colour. */
  lemma LoadColorMonotone(a: real, b: real)
    requires a <= b
    ensures Severity(LoadColor(a)) <= Severity(LoadColor(b))
  {
  }

  // ---------------------------------------------------------------------------
  // Status icon and badge

  datatype Icon = CheckCircle | AlertTriangle
  datatype BadgeVariant = Plain | Secondary | DestructiveBadge

  /** An icon and its colour. */
  datatype StatusIcon = StatusIcon(icon: Icon, tone: Tone)
  datatype Badge = Badge(variant: BadgeVariant, caption: string)

  /** `getStatusIcon`: a check for online, a triangle otherwise, coloured by
      the status. */
  function IconFor(s: ComponentStatus): (r: StatusIcon)
    ensures r.icon == CheckCircle <==> s == Online
    ensures r.tone == Success <==> s == Online
    ensures r.tone == Destructive <==> s == Offline
  {
    match s
    case Online => StatusIcon(CheckCircle, Success)
    case Warning => StatusIcon(AlertTriangle, Caution)
    case Offline => StatusIcon(AlertTriangle, Destructive)
  }

  /** `getStatusBadge`. */
  function BadgeFor(s: ComponentStatus): (b: Badge)
    ensures b.variant == DestructiveBadge <==> s == Offline
  {
    match s
    case Online => Badge(Plain, "Online")
    case Warning => Badge(Secondary, "Warning")
    case Offline => Badge(DestructiveBadge, "Offline")
  }

  /** Each status is drawn differently: distinct icons-with-colours and
      distinct badge captions. */
  lemma StatusPresentationDistinct(s: ComponentStatus, t: ComponentStatus)
    ensures IconFor(s) == IconFor(t) <==> s == t
    ensures BadgeFor(s).caption == BadgeFor(t).caption <==> s == t
  {
  }

  // ---------------------------------------------------------------------------
  // Counts and the warning banner

  /** `components.filter(c => c.status === s).length`. */
  function CountStatus(components: seq<Component>, s: ComponentStatus): (n: nat)
    ensures n <= |components|
  {
    if components == [] then 0
    else (if components[0].status == s then 1 else 0) + CountStatus(components[1..], s)
  }

  /** Every component is online, warning or offline, so the three counts
      add up to the number of components. */
  lemma {:induction false} CountsCoverAll(components: seq<Component>)
    ensures CountStatus(components, Online) + CountStatus(components, Warning)
      + CountStatus(components, Offline) == |components|
  {
    if components != [] {
      CountsCoverAll(components[1..]);
    }
  }

  /** A count is zero exactly when no component has that status. */
  lemma {:induction false} CountZeroIffNone(components: seq<Component>, s: ComponentStatus)
    ensures CountStatus(components, s) == 0 <==> forall i :: 0 <= i < |components| ==> components[i].status != s
  {
    if components != [] {
      CountZeroIffNone(components[1..], s);
      assert forall i :: 1 <= i < |components| ==> components[i] == components[1..][i - 1];
    }
  }

  /** The banner's text after the count: the two lines of the alert, which
      JSX joins with one space. */
  const AlertTail: string :=
    " showing warnings." + " MCP Orchestrator is experiencing high load and may need optimization."

  /** The alert banner's text, if the banner is shown: the warning count,
      "component" with a plural `s` when the count exceeds one, and fixed
      prose. */
  function WarningAlert(components: seq<Component>): (r: Option<string>)
    ensures r.Some? <==> CountStatus(components, Warning) > 0
    ensures r.Some? ==>
      var n := CountStatus(components, Warning);
      var k := Text.DigitRun(r.value);
      && Text.ParseDigits(r.value[..k]) == n
      && (Text.StartsWith(r.value[k..], " components ") <==> n > 1)
      && Text.StartsWith(r.value[k..], " component")
      && Text.EndsWith(r.value, AlertTail)
    ensures r.Some? ==>
      var n := CountStatus(components, Warning);
      |r.value| == |Text.NatToString(n)| + |" component"| + |Text.Plural(n)| + |AlertTail|
  {
    var n := CountStatus(components, Warning);
    if n > 0 then
      var rest := " component" + Text.Plural(n) + AlertTail;
      AlertRest(n);
      Text.CountThenRest(n, rest, AlertTail);
      Some(Text.NatToString(n) + rest)
    else None
  }

  /** The text after the count: "component", a plural `s` when the count
      exceeds one, then the banner's prose. */
  lemma AlertRest(n: nat)
    ensures var rest := " component" + Text.Plural(n) + AlertTail;
      && rest[0] == ' '
      && Text.StartsWith(rest, " component")
      && (Text.StartsWith(rest, " components ") <==> n > 1)
      && Text.EndsWith(rest, AlertTail)
  {
    var rest := " component" + Text.Plural(n) + AlertTail;
    assert rest[..10] == " component";
    assert AlertTail[0] == ' ';
    if n > 1 {
      assert rest[..12] == " components ";
    } else {
      assert rest[10] == ' ';
    }
    assert rest[|rest| - |AlertTail|..] == AlertTail;
  }

  // ---------------------------------------------------------------------------
  // Metric bars

  datatype Metric = CpuLoad | Memory

  /** One bar: which metric, its percentage and the colour of its figure. */
  datatype Bar = Bar(metric: Metric, value: real, tone: Tone)

  /** The performance block of a component: absent when neither load nor
      memory is known, otherwise a load bar if load is known followed by a
      memory bar if memory is known, each coloured by `LoadColor`. */
  function MetricBars(c: Component): (r: Option<seq<Bar>>)
    ensures r.Some? <==> c.load.Some? || c.memory.Some?
    ensures r.Some? ==> |r.value| == (if c.load.Some? then 1 else 0) + (if c.memory.Some? then 1 else 0)
    ensures r.Some? ==> forall b :: b in r.value ==>
      b.tone == LoadColor(b.value)
      && (b.metric == CpuLoad ==> c.load == Some(b.value))
      && (b.metric == Memory ==> c.memory == Some(b.value))
    ensures r.Some? && c.load.Some? ==> r.value[0] == Bar(CpuLoad, c.load.value, LoadColor(c.load.value))
    ensures r.Some? && c.memory.Some? ==>
      r.value[|r.value| - 1] == Bar(Memory, c.memory.value, LoadColor(c.memory.value))
  {
    if c.load.None? && c.memory.None? then None
    else
      var loadBar := if c.load.Some? then [Bar(CpuLoad, c.load.value, LoadColor(c.load.value))] else [];
      var memoryBar := if c.memory.Some? then [Bar(Memory, c.memory.value, LoadColor(c.memory.value))] else [];
      Some(loadBar + memoryBar)
  }

  /** The reading a metric bar shows. */
  function Reading(c: Component, m: Metric): Option<real> {
    match m
    case CpuLoad => c.load
    case Memory => c.memory
  }

  /** A component shows a bar for a metric exactly when that metric's reading
      is defined, and the bar shows that reading. */
  lemma BarShownIffDefined(c: Component, m: Metric)
    ensures (MetricBars(c).Some? && exists b :: b in MetricBars(c).value && b.metric == m) <==> Reading(c, m).Some?
    ensures MetricBars(c).Some? ==> forall b :: b in MetricBars(c).value && b.metric == m ==> Reading(c, m) == Some(b.value)
  {
    var r := MetricBars(c);
    if Reading(c, m).Some? {
      var b := Bar(m, Reading(c, m).value, LoadColor(Reading(c, m).value));
      if m == CpuLoad {
        assert r.value[0] == b;
      } else {
        assert r.value[|r.value| - 1] == b;
      }
    }
  }
}

=== FILE: text.dfy ===
/**
  String helpers shared by the pages: JavaScript's `trim`, ASCII case mapping,
  `includes`, decimal rendering of counts, and the `s` plural suffix.
  Strings are sequences of Unicode scalar values.
 */
module Text {

  /** The code points JavaScript's `String.prototype.trim` removes:
      WhiteSpace (tab, vertical tab, form feed, space, no-break space,
      byte order mark, the Zs category) and LineTerminator. */
  predicate IsWhitespace(c: char) {
    || c == '\t' || c == '\n' || c == '\U{000B}' || c == '\U{000C}' || c == '\r'
    || c == ' ' || c == '\U{00A0}' || c == '\U{1680}'
    || ('\U{2000}' <= c <= '\U{200A}')
    || c == '\U{2028}' || c == '\U{2029}' || c == '\U{202F}' || c == '\U{205F}'
    || c == '\U{3000}' || c == '\U{FEFF}'
  }

  predicate AllWhitespace(s: string) {
    forall i :: 0 <= i < |s| ==> IsWhitespace(s[i])
  }

  /** `s` with its leading whitespace removed. */
  function TrimStart(s: string): (r: string)
    ensures |r| <= |s| && r == s[|s| - |r|..]
    ensures AllWhitespace(s[..|s| - |r|])
    ensures r == [] || !IsWhitespace(r[0])
  {
    if |s| > 0 && IsWhitespace(s[0]) then
      var r := TrimStart(s[1..]);
      assert s[..|s| - |r|] == [s[0]] + s[1..][..|s| - 1 - |r|];
      r
    else s
  }

  /** `s` with its trailing whitespace removed. */
  function TrimEnd(s: string): (r: string)
    ensures |r| <= |s| && r == s[..|r|]
    ensures AllWhitespace(s[|r|..])
    ensures r == [] || !IsWhitespace(r[|r| - 1])
  {
    if |s| > 0 && IsWhitespace(s[|s| - 1]) then
      var r := TrimEnd(s[..|s| - 1]);
      assert s[|r|..] == s[..|s| - 1][|r|..] + [s[|s| - 1]];
      r
    else s
  }

  /** JavaScript's `s.trim()`. */
  function Trim(s: string): (r: string)
    ensures |r| <= |s|
    ensures r == [] || (!IsWhitespace(r[0]) && !IsWhitespace(r[|r| - 1]))
  {
    var t := TrimStart(s);
    var r := TrimEnd(t);
    assert r == [] || r[0] == t[0];
    r
  }

  /** `!s.trim()`, the guard both submit handlers apply to their input,
      read character by character: the string holds nothing but whitespace.
      `TrimEmptyIffBlank` shows that this is exactly when `trim` leaves
      nothing. */
  predicate Blank(s: string) {
    AllWhitespace(s)
  }

  /** `!s.trim()` and `Blank` agree on every string: trimming leaves nothing
      exactly when every character is JavaScript whitespace. */
  lemma TrimEmptyIffBlank(s: string)
    ensures Trim(s) == [] <==> Blank(s)
  {
  }

  /** A string with a character that is not whitespace is not blank. */
  lemma NotBlankWhenVisible(s: string, i: nat)
    requires i < |s| && !IsWhitespace(s[i])
    ensures !Blank(s)
  {
  }

  // ASCII case mapping (the model does not follow Unicode's full case tables).

  function LowerChar(c: char): char {
    if 'A' <= c <= 'Z' then (c as int + 32) as char else c
  }

  function UpperChar(c: char): char {
    if 'a' <= c <= 'z' then (c as int - 32) as char else c
  }

  /** `s.toLowerCase()` restricted to ASCII letters. */
  function Lower(s: string): (r: string)
    ensures |r| == |s|
    ensures forall i :: 0 <= i < |s| ==> r[i] == LowerChar(s[i])
  {
    if s == [] then [] else [LowerChar(s[0])] + Lower(s[1..])
  }

  /** `s.toUpperCase()` restricted to ASCII letters. */
  function Upper(s: string): (r: string)
    ensures |r| == |s|
    ensures forall i :: 0 <= i < |s| ==> r[i] == UpperChar(s[i])
  {
    if s == [] then [] else [UpperChar(s[0])] + Upper(s[1..])
  }

  /** Lower-casing forgets an earlier upper-casing. */
  lemma LowerOfUpper(s: string)
    ensures Lower(Upper(s)) == Lower(s)
  {
    var a, b := Lower(Upper(s)), Lower(s);
    forall i | 0 <= i < |s|
      ensures a[i] == b[i]
    {
      assert a[i] == LowerChar(UpperChar(s[i]));
    }
  }

  // Substring search, JavaScript's `hay.includes(needle)`.

  predicate StartsWith(s: string, prefix: string) {
    |prefix| <= |s| && s[..|prefix|] == prefix
  }

  predicate EndsWith(s: string, suffix: string) {
    |suffix| <= |s| && s[|s| - |suffix|..] == suffix
  }

  /** A template literal with one interpolation in double quotes:
      `${pre}"${quoted}"${post}`. */
  function Quote(pre: string, quoted: string, post: string): string {
    pre + "\"" + quoted + "\"" + post
  }

  /** `content` is `pre`, a double quote, `quoted`, a double quote and `post`,
      read off by position. */
  predicate QuoteShape(content: string, pre: string, post: string, quoted: string) {
    && |content| == |pre| + |quoted| + |post| + 2
    && StartsWith(content, pre + "\"")
    && EndsWith(content, "\"" + post)
    && content[|pre| + 1..|content| - |post| - 1] == quoted
  }

  /** The template can be read back: a text has the quoted shape exactly when
      it is the template filled with that text. Since the shape fixes the
      quoted part by position, different texts give different results. */
  lemma QuoteShapeIffQuote(content: string, pre: string, post: string, quoted: string)
    ensures QuoteShape(content, pre, post, quoted) <==> content == Quote(pre, quoted, post)
  {
    var q := Quote(pre, quoted, post);
    assert q[..|pre| + 1] == pre + "\"";
    assert q[|q| - |post| - 1..] == "\"" + post;
    assert q[|pre| + 1..|q| - |post| - 1] == quoted;
    if QuoteShape(content, pre, post, quoted) {
      assert content == content[..|pre| + 1] + content[|pre| + 1..|content| - |post| - 1]
        + content[|content| - |post| - 1..];
    }
  }

  /** `needle` occurs in `hay` starting at index `i`. */
  ghost predicate OccursAt(hay: string, needle: string, i: int) {
    0 <= i && i + |needle| <= |hay| && hay[i..i + |needle|] == needle
  }

  /** `hay.includes(needle)`: a scan that tries every start position in turn. */
  predicate Contains(hay: string, needle: string)
    ensures Contains(hay, needle) ==> |needle| <= |hay|
    ensures EndsWith(hay, needle) ==> Contains(hay, needle)
    decreases |hay|
  {
    assert |needle| < |hay| ==> hay[1..][|hay| - 1 - |needle|..] == hay[|hay| - |needle|..];
    StartsWith(hay, needle) || (|hay| > 0 && Contains(hay[1..], needle))
  }

  /** The scan finds `needle` exactly when it occurs somewhere in `hay`. */
  lemma {:induction false} ContainsIffOccurs(hay: string, needle: string)
    ensures Contains(hay, needle) <==> exists i :: OccursAt(hay, needle, i)
    decreases |hay|
  {
    if StartsWith(hay, needle) {
      assert OccursAt(hay, needle, 0);
    } else if |hay| > 0 {
      ContainsIffOccurs(hay[1..], needle);
      if exists i :: OccursAt(hay, needle, i) {
        var i :| OccursAt(hay, needle, i);
        assert i != 0;
        assert hay[1..][i - 1..i - 1 + |needle|] == hay[i..i + |needle|];
        assert OccursAt(hay[1..], needle, i - 1);
      }
      if exists j :: OccursAt(hay[1..], needle, j) {
        var j :| OccursAt(hay[1..], needle, j);
        assert hay[1..][j..j + |needle|] == hay[j + 1..j + 1 + |needle|];
        assert OccursAt(hay, needle, j + 1);
      }
    }
  }

  /** Every string includes the empty string. */
  lemma ContainsEmpty(hay: string)
    ensures Contains(hay, "")
  {
  }

  // Decimal rendering of non-negative integers, as JavaScript's template
  // literals print them (below 10^21 no exponent notation is used).

  predicate IsDigit(c: char) {
    '0' <= c <= '9'
  }

  predicate AllDigits(s: string) {
    forall i :: 0 <= i < |s| ==> IsDigit(s[i])
  }

  function DigitChar(d: nat): (c: char)
    requires d < 10
    ensures IsDigit(c)
  {
    ('0' as int + d) as char
  }

  function DigitValue(c: char): (d: nat)
    requires IsDigit(c)
    ensures d < 10
  {
    c as int - '0' as int
  }

  /** `${n}` for a non-negative integer `n`. */
  function NatToString(n: nat): (r: string)
    ensures |r| >= 1 && AllDigits(r)
    ensures n < 10 <==> |r| == 1
    ensures r[0] == '0' ==> n == 0
  {
    if n < 10 then [DigitChar(n)] else NatToString(n / 10) + [DigitChar(n % 10)]
  }

  /** The number a string of decimal digits denotes. */
  function ParseDigits(s: string): nat
    requires AllDigits(s)
  {
    if s == [] then 0 else ParseDigits(s[..|s| - 1]) * 10 + DigitValue(s[|s| - 1])
  }

  /** Reading a rendered count back gives the count. */
  lemma {:induction false} ParseNatToString(n: nat)
    ensures ParseDigits(NatToString(n)) == n
  {
    var s := NatToString(n);
    if n >= 10 {
      ParseNatToString(n / 10);
      assert s[..|s| - 1] == NatToString(n / 10);
    }
  }

  /** The length of the longest prefix of `s` made of decimal digits. */
  function DigitRun(s: string): (k: nat)
    ensures k <= |s| && AllDigits(s[..k])
    ensures k < |s| ==> !IsDigit(s[k])
  {
    if s != [] && IsDigit(s[0]) then
      var k := 1 + DigitRun(s[1..]);
      assert s[..k] == [s[0]] + s[1..][..k - 1];
      k
    else 0
  }

  /** A digit string followed by a non-digit: the run stops at the boundary. */
  lemma {:induction false} DigitRunOfConcat(digits: string, rest: string)
    requires AllDigits(digits)
    requires rest == [] || !IsDigit(rest[0])
    ensures DigitRun(digits + rest) == |digits|
    decreases |digits|
  {
    if digits != [] {
      assert (digits + rest)[1..] == digits[1..] + rest;
      DigitRunOfConcat(digits[1..], rest);
    }
  }

  /** A count followed by text starting with a space: the digit run is the
      count, the text follows it, and the whole ends as the text does. */
  lemma CountThenRest(n: nat, rest: string, tail: string)
    requires |rest| > 0 && rest[0] == ' ' && EndsWith(rest, tail)
    ensures var s := NatToString(n) + rest;
      var k := DigitRun(s);
      && k == |NatToString(n)|
      && ParseDigits(s[..k]) == n
      && s[k..] == rest
      && EndsWith(s, tail)
  {
    var digits := NatToString(n);
    var s := digits + rest;
    DigitRunOfConcat(digits, rest);
    ParseNatToString(n);
    assert s[..|digits|] == digits && s[|digits|..] == rest;
    assert s[|s| - |tail|..] == rest[|rest| - |tail|..];
  }

  /** The `s` suffix the pages append to a count label when the count exceeds one. */
  function Plural(n: int): (r: string)
    ensures r == "s" <==> n > 1
    ensures r == "" <==> n <= 1
  {
    if n > 1 then "s" else ""
  }
}

=== FILE: wrappers.dfy ===
/** Optional values: the source's `field?: T` properties and `undefined` results. */
module Wrappers {

  datatype Option<+T> = None | Some(value: T)
}
